=== FILE: README.md ===
# Contract store and request boundary, modelled in Dafny

This project models two parts of the GeniusAI contract-analysis service.

- **The persistence layer** (`DatabaseStorage` in `GeniusAIsolution/storage.ts`).
  The database is an immutable `Storage.Db` value. It holds one sequence of rows
  for each table: users, contracts, newsletter subscriptions, chat messages and
  email notifications. Each store method is a pure function from a `Db` to the
  next `Db` and the method's result. Where the source reads a clock (the Node
  process's `new Date()`, or a timestamp column default), the function takes a
  `now` timestamp instead.
  Each Drizzle query is a conjunctive filter over one table plus an update, and
  "zero rows affected" comes back as `false` or `None`, never as an error.
- **The request boundary** (`GeniusAIsolution/routes.ts`). This covers the
  upload intake filter (a MIME allow-list and a 10 MiB ceiling) and, for each
  route, how the store's or a service's result becomes a status code and a JSON
  body. The services have no code in this model: contract analysis, email, chat
  replies and tracking URLs. `Upload`, `SubscribeRoute`, `ChatRoute` and
  `TrackingUrlRoute` take the service as a function parameter and return the
  list of service calls they made, so a property like "no file means no
  analysis" can be stated. The other handlers (`GetContractRoute`,
  `ReanalyzeRoute`, `DeleteContractRoute`, `UnsubscribeRoute`, `Fetch`) take
  only the awaited result as an `Attempt` and return a bare `Response`. Their
  calls to `reanalyzeContract`, `getContractStats`,
  `processPendingNotifications` and `trackClick` are not recorded.

Modules, leaf first:

| file | module | contents |
|---|---|---|
| `wrappers.dfy` | `Wrappers` | `Option` (the store's `T \| undefined`) |
| `seqs.dfy` | `Seqs` | `Filter` (a `WHERE`), `SortDesc` (an `ORDER BY … DESC`, as a proved insertion sort), `First` (destructuring the first row), `Distinct` (a unique constraint) |
| `schema.dfy` | `Schema` | the rows of the five tables and the insert/patch records |
| `storage.dfy` | `Storage` | `Db`, the database constraints `Valid`, and one function per store method |
| `storage_properties.dfy` | `StorageProperties` | invariant preservation, ownership isolation, idempotence and frame lemmas |
| `routes.dfy` | `Routes` | intake check, route handlers, status codes |
| `endpoints.dfy` | `Endpoints` | lemmas that feed store results into the route handlers |

Decisions worth knowing:

- Row ids are abstract naturals handed out from `Db.nextId`. User ids are strings,
  as they come from the identity provider.
- `Valid(db)` is an invariant that the store's own writes preserve
  (`StorageProperties.*KeepsValid`). It says there is one row per user id and
  one newsletter row per email. Both are database constraints the source
  implies: `upsertUser` and `subscribeNewsletter` are `INSERT … ON CONFLICT`
  on `users.id` and on `newsletterSubscriptions.email`, and Postgres accepts a
  conflict target only on a unique column. The model's upsert and subscribe
  take the conflict branch when the key is present, so they keep both. Row ids
  are distinct and below the model's counter `nextId`. Every sent notification
  carries a `sentAt`, because `markNotificationSent` sets both fields
  together, and the model takes a new notification to start unsent (see
  `Storage.CreateEmailNotification` under "Left out"). The store functions do not require `Valid`. Only the
  lemmas that need uniqueness assume it.
- A pending notification is one with `sent == false && scheduledFor < now`. The
  comparison is strict (`lt`, `storage.ts:164`), so a notification scheduled
  exactly at `now` is not yet pending (`Endpoints.DueBoundary`).
- `markNotificationSent` has no `sent = false` guard. Marking a row twice
  overwrites `sentAt` with the later time, and the model keeps this.
- `updateContract` takes a `Partial<InsertContract>`, which includes `userId`.
  An update can therefore hand a contract to another owner. The patch models
  this (`ContractPatch.userId`).
- The user table's profile columns are not part of this model. A user's profile
  is a column-name → value map. The conflict branch of `upsertUser` overwrites
  exactly the columns present in the claims, as `set: { ...userData }` does.
- `subscribeNewsletter` inserts `{ email }` and relies on the table's column
  defaults. The model takes the new row to be active.
- The table definitions (`@shared/schema`) are outside this model. The
  contract status values (`Schema.Status`: pending, analyzing, analyzed,
  failed) are an assumed column set. No property depends on them.
- multer rejects an upload (wrong MIME type or over 10 MiB) before the handler
  runs. It hands the error to the application's error middleware, which is not
  part of this model. `routes.ts` sets no status code for a rejected file:
  multer passes the error on with `next(err)`. The model therefore reports such
  a request as `Forwarded(error)`, not as a status code. The MIME type is checked first
  (when the file part starts) and the size while the bytes arrive. See
  `Routes.CheckUpload` under "Left out" for the exact ceiling.
- A service call that throws is `Routes.Attempt.Threw`. The store functions
  themselves never fail. Routes that only read or make one store call take
  the store's result as an `Attempt`. `SubscribeRoute` and `ChatRoute` write
  through the store model itself. A boolean parameter per write
  (`storeThrows`, `askThrows`, `replyThrows`) says whether that write throws.
  A throwing write stores nothing. So every 400 and 500 branch of the source
  is modelled.

## Model

| member | source | states |
|---|---|---|
| `Seqs.Filter` | GeniusAIsolution/storage.ts:162-165 | a conjunctive `WHERE`: the result holds each row satisfying the condition as often as the table does and nothing else |
| `Seqs.SortDesc` | GeniusAIsolution/storage.ts:75 | `ORDER BY createdAt DESC`: the result is a permutation (same multiset) of its input, ordered newest first |
| `Seqs.First` | GeniusAIsolution/storage.ts:79-83 | `const [row] = …`: `None` exactly when no row matches; otherwise the earliest matching row |
| `Storage.GetUser` | GeniusAIsolution/storage.ts:49-52 | returns a user row with that id when one exists and `None` exactly when none does |
| `Storage.MergeUser` | GeniusAIsolution/storage.ts:58-64 | the conflict branch: columns present in the claims are overwritten, every other column is kept, `createdAt` is kept and `updatedAt` is now |
| `Storage.UpsertUser` | GeniusAIsolution/storage.ts:54-67 | inserts when the id is new and otherwise merges into the existing row without adding one; reading the id back afterwards yields the returned row; other users and other tables are unchanged |
| `Storage.GetContracts` | GeniusAIsolution/storage.ts:70-76 | exactly the contracts owned by the user, each as often as in the table, newest first |
| `Storage.GetContract` | GeniusAIsolution/storage.ts:78-84 | a returned contract has the requested id and belongs to the requesting user; `None` exactly when no such row exists |
| `Storage.CreateContract` | GeniusAIsolution/storage.ts:86-92 | appends one row with a fresh id carrying the caller's columns, created and updated now; nothing else changes |
| `Storage.ApplyPatch` | GeniusAIsolution/storage.ts:97 | `{ ...data, updatedAt }`: each column given in the patch is overwritten, each absent one is kept, the id and `createdAt` never change |
| `Storage.UpdateContract` | GeniusAIsolution/storage.ts:94-101 | only rows matching `(id, userId)` are patched; no match returns `None` and leaves the whole database unchanged; a match returns the patched row |
| `Storage.DeleteContract` | GeniusAIsolution/storage.ts:103-108 | returns true iff a row matching `(id, userId)` existed; removes exactly the matching rows; afterwards the contract cannot be read |
| `Storage.SubscribeNewsletter` | GeniusAIsolution/storage.ts:111-121 | a known email gets no second row, only `isActive` set on its row; an unknown one gets one new active row; every row for the email is active afterwards |
| `Storage.UnsubscribeNewsletter` | GeniusAIsolution/storage.ts:123-129 | returns true iff a row for the email exists; clears `isActive` on exactly those rows; otherwise changes nothing |
| `Storage.NewestOwnedMessages` | GeniusAIsolution/storage.ts:133-137 | exactly the user's messages, newest first |
| `Storage.NewestPrefix` | GeniusAIsolution/storage.ts:137-138 | a `LIMIT` applied to the user's messages sorted newest first leaves out only messages no newer than every one returned |
| `Storage.GetChatMessages` | GeniusAIsolution/storage.ts:132-139 | at most `limit` messages, all the user's, newest first; if any of the user's messages is left out, the result is full and nothing returned is older than it |
| `Storage.GetRecentChatMessages` | GeniusAIsolution/storage.ts:132-139 | with the default limit of 50: at most 50 of the user's messages, newest first, drawn from the table; if any of the user's messages is left out, all 50 are returned and none is older than it |
| `Storage.CreateChatMessage` | GeniusAIsolution/storage.ts:141-147 | appends one message with a fresh id and the given author, text and `isBot` flag |
| `Storage.CreateEmailNotification` | GeniusAIsolution/storage.ts:150-156 | appends one notification with a fresh id, unsent and without `sentAt` |
| `Storage.GetPendingNotifications` | GeniusAIsolution/storage.ts:158-166 | exactly the notifications with `sent == false` and `scheduledFor < now` (strict) |
| `Storage.MarkNotificationSent` | GeniusAIsolution/storage.ts:168-174 | returns true iff the id exists; sets `sent` and `sentAt = now` on that row only; otherwise changes nothing |
| `StorageProperties.UpsertUserKeepsValid` | GeniusAIsolution/storage.ts:54-67 | upserting never creates two rows with one user id |
| `StorageProperties.CreateContractKeepsValid` | GeniusAIsolution/storage.ts:86-92 | a created contract's id is new |
| `StorageProperties.UpdateContractKeepsValid` | GeniusAIsolution/storage.ts:94-101 | updating keeps contract ids unique |
| `StorageProperties.DeleteContractKeepsValid` | GeniusAIsolution/storage.ts:103-108 | deleting keeps contract ids unique and below the next id |
| `StorageProperties.SubscribeKeepsValid` | GeniusAIsolution/storage.ts:111-121 | subscribing keeps emails unique: no duplicate newsletter rows |
| `StorageProperties.UnsubscribeKeepsValid` | GeniusAIsolution/storage.ts:123-129 | unsubscribing keeps ids and emails unique |
| `StorageProperties.CreateChatMessageKeepsValid` | GeniusAIsolution/storage.ts:141-147 | a new message's id is new |
| `StorageProperties.CreateEmailNotificationKeepsValid` | GeniusAIsolution/storage.ts:150-156 | a new notification's id is new |
| `StorageProperties.MarkNotificationSentKeepsValid` | GeniusAIsolution/storage.ts:168-174 | every sent notification keeps a `sentAt` |
| `StorageProperties.OwnershipIsolation` | GeniusAIsolution/storage.ts:78-84 | a contract owned by another user is never returned, although its row exists |
| `StorageProperties.CreatedContractIsVisible` | GeniusAIsolution/storage.ts:86-92 | the owner reads a created contract back by its id and finds it in their list |
| `StorageProperties.UpdatedContractIsVisible` | GeniusAIsolution/storage.ts:94-101 | after an update that keeps the owner, reading the contract yields what the update returned |
| `StorageProperties.DeleteIsIdempotent` | GeniusAIsolution/storage.ts:103-108 | an immediate second delete returns false and changes nothing |
| `StorageProperties.DeleteLeavesOtherUsers` | GeniusAIsolution/storage.ts:103-108 | one user's delete changes neither what another user reads by id nor another user's list |
| `StorageProperties.SubscribeLeavesOneActiveRow` | GeniusAIsolution/storage.ts:111-121 | after subscribing, exactly one row for the email exists and it is active |
| `StorageProperties.SubscribeIsIdempotent` | GeniusAIsolution/storage.ts:111-121 | subscribing twice leaves the database and result as subscribing once did |
| `StorageProperties.UnsubscribeThenResubscribe` | GeniusAIsolution/storage.ts:111-129 | unsubscribing a subscribed email returns true and deactivates it; subscribing again reuses the row and reactivates it |
| `StorageProperties.MarkedNotificationLeavesPending` | GeniusAIsolution/storage.ts:158-174 | once marked sent, a notification is never pending again, at any time |
| `StorageProperties.MarkSentLeavesOthersPending` | GeniusAIsolution/storage.ts:168-174 | marking one notification sent does not change whether any other notification is pending |
| `StorageProperties.CreatedNotificationIsPendingWhenDue` | GeniusAIsolution/storage.ts:150-166 | a new notification is pending exactly when its scheduled time has passed |
| `StorageProperties.ChatHistoryIsPerUser` | GeniusAIsolution/storage.ts:132-147 | storing a message for one user leaves every other user's history unchanged |
| `Routes.CheckUpload` | GeniusAIsolution/routes.ts:14-34 | accepts a file iff its MIME type is one of the five listed and its size is at most 10·1024·1024 bytes (an inclusive ceiling, see Left out); a disallowed type is reported as such whatever the size |
| `Routes.Upload` | GeniusAIsolution/routes.ts:64-89 | no file is a 400 without analysis; a rejected file is forwarded without analysis, carrying the intake error for its verdict (the invalid-type message, or "File too large"); an accepted file is analysed exactly once with its bytes unchanged; 200 carries the returned id exactly when analysis returns; a thrown analysis is a 500 carrying the error's message, or "Failed to analyze contract" |
| `Routes.GetContractRoute` | GeniusAIsolution/routes.ts:91-105 | 404 iff the owner-scoped lookup returned nothing; 200 with the record iff it returned one; 500 iff it threw |
| `Routes.ReanalyzeRoute` | GeniusAIsolution/routes.ts:107-121 | 200 iff re-analysis returned true; a false result and a thrown error are both 500 |
| `Routes.DeleteContractRoute` | GeniusAIsolution/routes.ts:123-137 | 200 iff the store reports a deleted row, 404 iff it reports none, 500 iff it threw |
| `Routes.Fetch` | GeniusAIsolution/routes.ts:53-62 | the pass-through routes: 200 with the rendered value iff the call returned, 500 with the route's failure body iff it threw |
| `Routes.SubscribeRoute` | GeniusAIsolution/routes.ts:152-168 | an invalid email is a 400 with no write and no email; a throwing store write is a 500 with nothing stored and no email; otherwise the subscription is stored and one confirmation is sent: 200 iff sending succeeded, 400 "Invalid email address" iff it threw a validation error, else 500 |
| `Routes.UnsubscribeRoute` | GeniusAIsolution/routes.ts:170-184 | 200 iff the store found the email, 404 iff it did not, 500 iff it threw |
| `Routes.ChatRoute` | GeniusAIsolution/routes.ts:198-228 | a malformed body is a 400 with nothing stored; a throwing first write is a 500 with nothing stored and no AI call; otherwise the user's message is stored under the caller's id first, and the bot's reply is stored under the same id and returned with 200 iff generation and the second write both succeed; a validation error thrown by generation is a 400 "Invalid message format" over the stored question; every other outcome is a 500; only the messages table and the id counter change, the counter by one per stored row, and `Valid` is preserved |
| `Routes.TrackingUrlRoute` | GeniusAIsolution/routes.ts:242-262 | 400 iff the category or subcategory is missing or empty, and then no URL is generated; otherwise one generation call: a returned URL is a 200 carrying it, a throw is a 500 |
| `Endpoints.OtherUsersContractIsNotFound` | GeniusAIsolution/routes.ts:94-98 | `GET /api/contracts/:id` for another user's contract is a 404 |
| `Endpoints.OwnContractIsReturned` | GeniusAIsolution/routes.ts:94-100 | the owner's `GET /api/contracts/:id` is a 200 carrying exactly that contract |
| `Endpoints.DeleteTwiceIsOkThenNotFound` | GeniusAIsolution/routes.ts:126-132 | deleting an owned contract is a 200, and deleting it again is a 404 |
| `Endpoints.UnknownEmailUnsubscribeIsNotFound` | GeniusAIsolution/routes.ts:173-179 | unsubscribing an unknown email is a 404 and writes nothing |
| `Endpoints.FailedConfirmationKeepsSubscription` | GeniusAIsolution/routes.ts:155-166 | a failed confirmation email is a 500, or a 400 when it threw a validation error, but the subscription stays stored and active |
| `Endpoints.FailedReplyKeepsQuestion` | GeniusAIsolution/routes.ts:204-226 | a failed reply generation is a 500, or a 400 when it threw a validation error, but the user's message is already stored |
| `Endpoints.UploadScenarios` | GeniusAIsolution/routes.ts:19-33 | a 2 MB PDF is analysed once with its bytes; an executable is forwarded as an invalid type without analysis |
| `Endpoints.IntakeBoundaries` | GeniusAIsolution/routes.ts:16-28 | under the inclusive ceiling, exactly 10 MiB is accepted and one byte more is not; MIME types are matched exactly, including case |
| `Endpoints.FailedSubscriptionWriteSendsNoEmail` | GeniusAIsolution/routes.ts:155-166 | a store that throws on the subscription write gives a 500 with no confirmation email and nothing stored |
| `Endpoints.FailedReplyWriteKeepsQuestionOnly` | GeniusAIsolution/routes.ts:204-226 | a store that throws on the reply write gives a 500 after the AI call, with the question stored and no reply row |
| `Endpoints.AuthUserIsOwnRow` | GeniusAIsolution/routes.ts:41-50 | `GET /api/auth/user` is a 200 carrying the caller's own stored row, or none |
| `Endpoints.ContractListIsOwnersOnly` | GeniusAIsolution/routes.ts:53-62 | `GET /api/contracts` is a 200 listing only stored contracts owned by the caller |
| `Endpoints.ChatHistoryIsOwnersOnly` | GeniusAIsolution/routes.ts:187-196 | `GET /api/chat/messages` is a 200 with at most 50 messages, all the caller's, newest first |
| `Endpoints.TrackingOptionalParamsDoNotValidate` | GeniusAIsolution/routes.ts:244-248 | whether a tracking-URL request is a 400 never depends on the optional provider and postcode |
| `Endpoints.DueBoundary` | GeniusAIsolution/storage.ts:164 | a notification scheduled exactly now is not pending; one time unit later it is |

## Left out

- `contractAnalysisService` (`analyzeContractFile`, `reanalyzeContract`, `getContractStats`) is not part of this model. The routes see it only as a function or a result: a contract id, a boolean, or the stats value that `Routes.Fetch` passes through.
- `emailService` (`processPendingNotifications`, `sendNewsletterConfirmation`) is not part of this model. The notification sweep's per-row behaviour is therefore not modelled. Only the store operations it would use are.
- The hourly `setInterval` sweep (routes.ts:280-287) is a process timer. It calls the same `processPendingNotifications` as `POST /api/internal/process-notifications`. The model covers that endpoint's result handling with `Routes.Fetch` and does not model the timer.
- `aiService.generateChatResponse` and `trackingService` are not part of this model. They are function parameters of `ChatRoute` and `TrackingUrlRoute`. `trackClick` is a pass-through covered by `Routes.Fetch`.
- `setupAuth`, `isAuthenticated` and the session claims are auth plumbing. The authenticated user id is a parameter.
- Express and multer mechanics are not modelled. This covers multipart parsing, a file sent under a field other than `file`, and the status code that the error middleware gives a forwarded intake error. That middleware is outside this model.
- The zod schemas (`insertNewsletterSchema`, `insertChatMessageSchema`) are not part of this model. Whether a body parses is an `Option` parameter. A service error is a zod validation error when `Attempt.Threw.validation` is set. `SubscribeRoute` and `ChatRoute` answer it with the 400 that their `catch` gives any `ZodError`, and answer every other error with a 500.
- Drizzle and Postgres are not modelled: the driver, `rowCount`, serial sequences and thrown database errors. Ids come from a counter. Timestamps are the `now` parameters. A thrown store error enters only at the routes: as `Attempt.Threw`, or as a per-write flag in `SubscribeRoute` and `ChatRoute`. A throwing write is taken to store nothing.
- `Storage.GetChatMessages`: the limit is a `nat`. A negative `LIMIT`, which Postgres rejects, is not modelled because the only caller in `routes.ts` uses the default of 50.
- Query parameters that arrive as arrays, and a missing `email` in an unsubscribe body, are not modelled. Only string values are.
- `Routes.Fetch`: one contract covers the six pass-through routes (auth user, contract list, stats, chat history, notification trigger, click tracking). It does not restate each route's failure message.
- `Storage.CreateEmailNotification`: the insert record is taken to carry no `sent` or `sentAt` column, so a new row gets the defaults: unsent, without `sentAt`. `storage.ts` inserts the caller's `InsertEmailNotification` unchanged, and `@shared/schema`, which defines that type, is outside this model. `SentCarryTime` surviving an insert and `StorageProperties.CreatedNotificationIsPendingWhenDue` rest on this.
- `Routes.CheckUpload`: the ceiling is taken to be inclusive, so a file of exactly 10 MiB is accepted. `routes.ts` only sets `limits.fileSize`. The behaviour at exactly that size is decided inside multer's busboy, and the model assumes a version that rejects only a file larger than the limit. A busboy that fires its limit when the byte count reaches `fileSize` would reject a file of exactly 10 MiB as "File too large".
- Concurrency is outside this sequential model. This includes a re-analysis racing a delete of the same contract, and overlapping sweeps.

=== FILE: endpoints.dfy ===
/**
 End-to-end properties: a route handler fed with what the store model returns.
 They tie the status codes a client sees to the state of the database.
 */
module Endpoints {
  import opened Wrappers
  import opened Schema
  import opened Storage
  import opened Routes
  import StorageProperties
  import Seqs

  /** Asking for another user's contract is a 404, although the row exists. */
  lemma OtherUsersContractIsNotFound(db: Db, c: Contract, userId: UserId)
    requires Valid(db)
    requires c in db.contracts && c.userId != userId
    ensures GetContractRoute(Returned(GetContract(db, c.id, userId))).code == NotFound
  {
  }

  /** The owner asking for their contract gets exactly that record. */
  lemma OwnContractIsReturned(db: Db, c: Contract)
    requires Valid(db)
    requires c in db.contracts
    ensures GetContractRoute(Returned(GetContract(db, c.id, c.userId))) == Response(Ok, ContractRecord(c))
  {
  }

  /** Deleting an owned contract is a 200; deleting it again is a 404, not an error. */
  lemma DeleteTwiceIsOkThenNotFound(db: Db, c: Contract)
    requires c in db.contracts
    ensures var first := DeleteContract(db, c.id, c.userId);
      var second := DeleteContract(first.db, c.id, c.userId);
      && DeleteContractRoute(Returned(first.value)).code == Ok
      && DeleteContractRoute(Returned(second.value)).code == NotFound
  {
  }

  /** Unsubscribing an email that never subscribed is a 404 and writes nothing. */
  lemma UnknownEmailUnsubscribeIsNotFound(db: Db, email: string)
    requires forall s | s in db.subscriptions :: s.email != email
    ensures var r := UnsubscribeNewsletter(db, email);
      UnsubscribeRoute(Returned(r.value)).code == NotFound && r.db == db
  {
  }

  /**
   A failed confirmation email is a 500 (a 400 when it throws a validation
   error), but the subscription it followed stays stored and active.
   */
  lemma FailedConfirmationKeepsSubscription(db: Db, email: string, confirm: string -> Attempt<()>, now: Time)
    requires confirm(email).Threw?
    ensures var r := SubscribeRoute(db, Some(email), false, confirm, now);
      && r.value.outcome.response.code == (if confirm(email).validation then BadRequest else ServerError)
      && exists s | s in r.db.subscriptions :: s.email == email && s.isActive
  {
  }

  /**
   A reply that fails to generate is a 500 (a 400 when it throws a validation
   error), but the user's own message is already stored.
   */
  lemma FailedReplyKeepsQuestion(db: Db, userId: UserId, message: string, replyThrows: bool,
                                 generate: (string, UserId) -> Attempt<string>, sentAt: Time, repliedAt: Time)
    requires generate(message, userId).Threw?
    ensures var r := ChatRoute(db, userId, Some(message), false, replyThrows, generate, sentAt, repliedAt);
      && r.value.outcome.response.code == (if generate(message, userId).validation then BadRequest else ServerError)
      && r.db.messages == db.messages + [ChatMessage(db.nextId, userId, message, false, sentAt)]
  {
  }

  /** A 2 MB PDF is analysed once with its bytes unchanged; an executable is turned away before analysis. */
  lemma UploadScenarios(userId: UserId, pdf: seq<bv8>, exe: seq<bv8>, analyze: (seq<bv8>, string, UserId) -> Attempt<RowId>)
    requires |pdf| == 2 * 1024 * 1024 && |exe| == 2 * 1024 * 1024
    ensures Upload(userId, Some(UploadedFile("lease.pdf", "application/pdf", pdf)), analyze).calls
      == [AnalyzeContractFile(pdf, "lease.pdf", userId)]
    ensures var r := Upload(userId, Some(UploadedFile("setup.exe", "application/x-msdownload", exe)), analyze);
      r.calls == [] && r.outcome == Forwarded("Invalid file type. Only PDF and image files are allowed.")
  {
  }

  /** The ceiling is inclusive, and MIME types are compared exactly, case included. */
  lemma IntakeBoundaries()
    ensures CheckUpload("image/png", 10485760) == Accepted
    ensures CheckUpload("image/png", 10485761) == FileTooLarge
    ensures CheckUpload("IMAGE/PNG", 1) == InvalidFileType
    ensures CheckUpload("image/webp", 1) == InvalidFileType
    ensures CheckUpload("image/gif", 0) == Accepted
  {
  }

  /** A notification scheduled exactly now is not yet due; one time unit later it is. */
  lemma DueBoundary(now: Time)
    ensures var r := CreateEmailNotification(Empty, NewNotification("a@b.c", "reminder", now), now);
      && GetPendingNotifications(r.db, now) == []
      && GetPendingNotifications(r.db, now + 1) == [r.value]
  {
  }

  /** A store that throws on the subscription write means a 500 and no confirmation email. */
  lemma FailedSubscriptionWriteSendsNoEmail(db: Db, email: string, confirm: string -> Attempt<()>, now: Time)
    ensures var r := SubscribeRoute(db, Some(email), true, confirm, now);
      && r.value.outcome.response.code == ServerError
      && r.value.calls == []
      && r.db == db
  {
  }

  /**
   A store that throws on the reply write means a 500 after the reply was
   generated: the question stays stored, the reply does not.
   */
  lemma FailedReplyWriteKeepsQuestionOnly(db: Db, userId: UserId, message: string,
                                          generate: (string, UserId) -> Attempt<string>, sentAt: Time, repliedAt: Time)
    requires generate(message, userId).Returned?
    ensures var r := ChatRoute(db, userId, Some(message), false, true, generate, sentAt, repliedAt);
      && r.value.outcome.response.code == ServerError
      && r.value.calls == [GenerateChatResponse(message, userId)]
      && r.db.messages == db.messages + [ChatMessage(db.nextId, userId, message, false, sentAt)]
  {
  }

  /** `GET /api/auth/user` hands back the caller's own row, or nothing. */
  lemma AuthUserIsOwnRow(db: Db, userId: UserId)
    ensures var r := Fetch(Returned(GetUser(db, userId)), RenderUser, Message("Failed to fetch user"));
      && r.code == Ok
      && r.body.UserRecord?
      && (r.body.user.Some? ==> r.body.user.value.id == userId && r.body.user.value in db.users)
  {
  }

  /** `GET /api/contracts` is a 200 listing only the caller's contracts, each one stored. */
  lemma ContractListIsOwnersOnly(db: Db, userId: UserId)
    ensures var r := Fetch(Returned(GetContracts(db, userId)), RenderContracts, Message("Failed to fetch contracts"));
      && r.code == Ok
      && r.body.ContractList?
      && forall c | c in r.body.contracts :: c.userId == userId && c in db.contracts
  {
  }

  /** `GET /api/chat/messages` is a 200 with at most 50 of the caller's own messages, newest first. */
  lemma ChatHistoryIsOwnersOnly(db: Db, userId: UserId)
    ensures var r := Fetch(Returned(GetRecentChatMessages(db, userId)), RenderMessages, Message("Failed to fetch chat messages"));
      && r.code == Ok
      && r.body.MessageList?
      && |r.body.messages| <= 50
      && (forall i | 0 <= i < |r.body.messages| :: r.body.messages[i].userId == userId)
      && Seqs.SortedDesc(r.body.messages, MessageCreatedAt)
  {
  }

  /** The optional provider and postcode never decide whether a tracking-URL request is a 400. */
  lemma TrackingOptionalParamsDoNotValidate(category: Option<string>, subcategory: Option<string>,
                                           provider: Option<string>, postcode: Option<string>,
                                           provider2: Option<string>, postcode2: Option<string>,
                                           generate: (string, string, Option<string>, Option<string>) -> Attempt<string>)
    ensures (TrackingUrlRoute(category, subcategory, provider, postcode, generate).outcome.response.code == BadRequest)
      == (TrackingUrlRoute(category, subcategory, provider2, postcode2, generate).outcome.response.code == BadRequest)
  {
  }
}

=== FILE: routes.dfy ===
/**
 The request boundary. The upload intake filter decides which files reach the
 upload handler, and each route handler turns what the store or a service
 returned, or threw, into a status code and a body. The services behind the
 routes (contract analysis, email, chat replies, tracking) are not part of
 this model. The handlers that call one before deciding (`Upload`,
 `SubscribeRoute`, `ChatRoute`, `TrackingUrlRoute`) take it as a function
 parameter and report the calls they made, so that "the service is not
 invoked" can be stated; the others take only the awaited result.
 */
module Routes {
  import opened Wrappers
  import opened Schema
  import Storage

  const Ok: nat := 200
  const BadRequest: nat := 400
  const NotFound: nat := 404
  const ServerError: nat := 500

  /** The intake size ceiling: 10 MiB. */
  const MaxUploadBytes: nat := 10 * 1024 * 1024

  const AllowedMimeTypes: seq<string> := ["application/pdf", "image/jpeg", "image/jpg", "image/png", "image/gif"]

  /**
   What an awaited call produced: a value, or a thrown error, with its message
   when it is an `Error` and whether it is a zod validation error (a
   `ZodError`), which the handlers that parse a body answer with a 400.
   */
  datatype Attempt<+T> = Returned(value: T) | Threw(message: Option<string>, validation: bool)

  /** The JSON bodies the routes send. */
  datatype Body =
    | Message(text: string)
    | Error(text: string)
    | Uploaded(contractId: RowId)
    | ContractRecord(contract: Contract)
    | ContractList(contracts: seq<Contract>)
    | UserRecord(user: Option<User>)
    | MessageList(messages: seq<ChatMessage>)
    | ChatReply(response: string)
    | TrackingUrl(url: string)

  datatype Response = Response(code: nat, body: Body)

  /** A call a handler made into a service outside the store. */
  datatype Call =
    | AnalyzeContractFile(buffer: seq<bv8>, fileName: string, userId: UserId)
    | SendNewsletterConfirmation(email: string)
    | GenerateChatResponse(message: string, userId: UserId)
    | GenerateTrackingUrl(category: string, subcategory: string, provider: Option<string>, postcode: Option<string>)

  /** A response, or an error handed on to the application's error middleware. */
  datatype Outcome = Responded(response: Response) | Forwarded(error: string)

  /** The calls a request made, and how it ended. */
  datatype Exchange = Exchange(calls: seq<Call>, outcome: Outcome)

  // --------------------------------------------------------------- intake

  datatype Intake = Accepted | InvalidFileType | FileTooLarge

  /**
   The upload middleware's check of one file part: the declared MIME type is
   filtered first (when the part starts), the size ceiling applies while the
   bytes arrive.
   */
  function CheckUpload(mimeType: string, size: nat): (r: Intake)
    ensures r.Accepted? <==>
      && (|| mimeType == "application/pdf" || mimeType == "image/jpeg" || mimeType == "image/jpg"
          || mimeType == "image/png" || mimeType == "image/gif")
      && size <= 10485760
    ensures r.InvalidFileType? <==>
      !(|| mimeType == "application/pdf" || mimeType == "image/jpeg" || mimeType == "image/jpg"
        || mimeType == "image/png" || mimeType == "image/gif")
  {
    if mimeType !in AllowedMimeTypes then InvalidFileType
    else if size > MaxUploadBytes then FileTooLarge
    else Accepted
  }

  /** The error the middleware forwards for a rejected part. */
  function IntakeError(i: Intake): string
  {
    match i
    case InvalidFileType => "Invalid file type. Only PDF and image files are allowed."
    case FileTooLarge => "File too large"
    case Accepted => ""
  }

  datatype UploadedFile = UploadedFile(originalName: string, mimeType: string, buffer: seq<bv8>)

  /**
   `POST /api/contracts/upload`: the intake check on the file part, if any,
   then the handler. No file is a 400 with no analysis; a rejected file never
   reaches the handler; an accepted one is analysed exactly once, unchanged.
   */
  function Upload(userId: UserId, part: Option<UploadedFile>,
                  analyze: (seq<bv8>, string, UserId) -> Attempt<RowId>): (r: Exchange)
    ensures part.None? ==> r == Exchange([], Responded(Response(BadRequest, Message("No file uploaded"))))
    ensures part.Some? && !CheckUpload(part.value.mimeType, |part.value.buffer|).Accepted? ==>
      r.calls == [] && r.outcome == Forwarded(IntakeError(CheckUpload(part.value.mimeType, |part.value.buffer|)))
    ensures r.calls != [] <==> part.Some? && CheckUpload(part.value.mimeType, |part.value.buffer|).Accepted?
    ensures r.calls != [] ==> r.calls == [AnalyzeContractFile(part.value.buffer, part.value.originalName, userId)]
    ensures r.outcome.Responded? && r.outcome.response.code == Ok <==>
      r.calls != [] && analyze(part.value.buffer, part.value.originalName, userId).Returned?
    ensures r.outcome.Responded? && r.outcome.response.code == Ok ==>
      r.outcome.response.body == Uploaded(analyze(part.value.buffer, part.value.originalName, userId).value)
    ensures r.calls != [] && analyze(part.value.buffer, part.value.originalName, userId).Threw? ==>
      r.outcome == Responded(Response(ServerError,
        Message(analyze(part.value.buffer, part.value.originalName, userId).message.GetOr("Failed to analyze contract"))))
  {
    match part
    case None => Exchange([], Responded(Response(BadRequest, Message("No file uploaded"))))
    case Some(f) =>
      var intake := CheckUpload(f.mimeType, |f.buffer|);
      if !intake.Accepted? then Exchange([], Forwarded(IntakeError(intake)))
      else
        var call := [AnalyzeContractFile(f.buffer, f.originalName, userId)];
        match analyze(f.buffer, f.originalName, userId)
        case Returned(id) => Exchange(call, Responded(Response(Ok, Uploaded(id))))
        case Threw(msg, _) => Exchange(call, Responded(Response(ServerError, Message(msg.GetOr("Failed to analyze contract")))))
  }

  // ------------------------------------------------------ contract routes

  /** `GET /api/contracts/:id`: 404 when the owner-scoped lookup finds nothing. */
  function GetContractRoute(found: Attempt<Option<Contract>>): (r: Response)
    ensures r.code == NotFound <==> found == Returned(None)
    ensures r.code == Ok <==> found.Returned? && found.value.Some?
    ensures r.code == Ok ==> r.body == ContractRecord(found.value.value)
    ensures r.code == ServerError <==> found.Threw?
  {
    match found
    case Returned(None) => Response(NotFound, Message("Contract not found"))
    case Returned(Some(c)) => Response(Ok, ContractRecord(c))
    case Threw(_, _) => Response(ServerError, Message("Failed to fetch contract"))
  }

  /** `POST /api/contracts/:id/reanalyze`: a `false` from the service is a 500, like a thrown error. */
  function ReanalyzeRoute(result: Attempt<bool>): (r: Response)
    ensures r.code == Ok <==> result == Returned(true)
    ensures r.code != Ok ==> r.code == ServerError
  {
    match result
    case Returned(true) => Response(Ok, Message("Contract re-analyzed successfully"))
    case _ => Response(ServerError, Message("Failed to re-analyze contract"))
  }

  /** `DELETE /api/contracts/:id`: zero rows deleted is a 404, not an error. */
  function DeleteContractRoute(result: Attempt<bool>): (r: Response)
    ensures r.code == Ok <==> result == Returned(true)
    ensures r.code == NotFound <==> result == Returned(false)
    ensures r.code == ServerError <==> result.Threw?
  {
    match result
    case Returned(true) => Response(Ok, Message("Contract deleted successfully"))
    case Returned(false) => Response(NotFound, Message("Contract not found"))
    case Threw(_, _) => Response(ServerError, Message("Failed to delete contract"))
  }

  /**
   The routes that hand a store or service result straight back:
   `GET /api/auth/user`, `GET /api/contracts`, `GET /api/dashboard/stats`,
   `GET /api/chat/messages`, `POST /api/internal/process-notifications` and
   `POST /api/tracking/click`. Whatever came back is a 200, a throw is a 500.
   */
  function Fetch<T>(result: Attempt<T>, render: T -> Body, failure: Body): (r: Response)
    ensures r.code == Ok <==> result.Returned?
    ensures result.Returned? ==> r.body == render(result.value)
    ensures result.Threw? ==> r == Response(ServerError, failure)
  {
    match result
    case Returned(v) => Response(Ok, render(v))
    case Threw(_, _) => Response(ServerError, failure)
  }

  /** How `GET /api/auth/user`, `GET /api/contracts` and `GET /api/chat/messages` render what they fetched. */
  function RenderUser(u: Option<User>): Body { UserRecord(u) }

  function RenderContracts(cs: seq<Contract>): Body { ContractList(cs) }

  function RenderMessages(ms: seq<ChatMessage>): Body { MessageList(ms) }

  // ---------------------------------------------------- newsletter routes

  /**
   `POST /api/newsletter/subscribe`: an email that fails validation is a 400
   before any write or email. Otherwise the subscription is stored first and
   the confirmation email sent after, so a failed email is a 500 over a
   subscription that stays stored. `storeThrows` says whether the store's
   write throws; a throwing write stores nothing, and the handler answers 500
   without sending an email.
   */
  function SubscribeRoute(db: Storage.Db, email: Option<string>, storeThrows: bool,
                          confirm: string -> Attempt<()>, now: Time)
    : (r: Storage.Reply<Exchange>)
    ensures email.None? ==>
      r == Storage.Reply(db, Exchange([], Responded(Response(BadRequest, Message("Invalid email address")))))
    ensures email.Some? && storeThrows ==>
      r == Storage.Reply(db, Exchange([], Responded(Response(ServerError, Message("Failed to subscribe to newsletter")))))
    ensures email.Some? && !storeThrows ==>
      && r.db == Storage.SubscribeNewsletter(db, email.value, now).db
      && r.value.calls == [SendNewsletterConfirmation(email.value)]
      && r.value.outcome.Responded?
      && (r.value.outcome.response.code == Ok <==> confirm(email.value).Returned?)
      && (r.value.outcome.response.code == BadRequest <==> confirm(email.value).Threw? && confirm(email.value).validation)
      && (confirm(email.value).Threw? && confirm(email.value).validation ==>
            r.value.outcome.response == Response(BadRequest, Message("Invalid email address")))
      && (confirm(email.value).Threw? && !confirm(email.value).validation ==>
            r.value.outcome.response == Response(ServerError, Message("Failed to subscribe to newsletter")))
  {
    var failed := Response(ServerError, Message("Failed to subscribe to newsletter"));
    match email
    case None => Storage.Reply(db, Exchange([], Responded(Response(BadRequest, Message("Invalid email address")))))
    case Some(e) =>
      if storeThrows then Storage.Reply(db, Exchange([], Responded(failed)))
      else
        var stored := Storage.SubscribeNewsletter(db, e, now);
        var call := [SendNewsletterConfirmation(e)];
        match confirm(e)
        case Returned(_) => Storage.Reply(stored.db, Exchange(call, Responded(Response(Ok, Message("Successfully subscribed to newsletter")))))
        case Threw(_, true) => Storage.Reply(stored.db, Exchange(call, Responded(Response(BadRequest, Message("Invalid email address")))))
        case Threw(_, false) => Storage.Reply(stored.db, Exchange(call, Responded(failed)))
  }

  /** `POST /api/newsletter/unsubscribe`: an email with no row is a 404. */
  function UnsubscribeRoute(result: Attempt<bool>): (r: Response)
    ensures r.code == Ok <==> result == Returned(true)
    ensures r.code == NotFound <==> result == Returned(false)
    ensures r.code == ServerError <==> result.Threw?
  {
    match result
    case Returned(true) => Response(Ok, Message("Successfully unsubscribed from newsletter"))
    case Returned(false) => Response(NotFound, Message("Email not found"))
    case Threw(_, _) => Response(ServerError, Message("Failed to unsubscribe from newsletter"))
  }

  // ---------------------------------------------------------- chat route

  /**
   `POST /api/chat/message`: a malformed body is a 400 with nothing stored.
   Otherwise the user's message is stored before the reply is generated, and
   the bot's reply is stored only when generation succeeds. `askThrows` and
   `replyThrows` say whether the store's first and second writes throw; a
   throwing write stores nothing, and every throw ends the request with a 500.
   */
  function ChatRoute(db: Storage.Db, userId: UserId, message: Option<string>,
                     askThrows: bool, replyThrows: bool,
                     generate: (string, UserId) -> Attempt<string>, sentAt: Time, repliedAt: Time)
    : (r: Storage.Reply<Exchange>)
    ensures message.None? ==>
      r == Storage.Reply(db, Exchange([], Responded(Response(BadRequest, Message("Invalid message format")))))
    ensures message.Some? && askThrows ==>
      r == Storage.Reply(db, Exchange([], Responded(Response(ServerError, Message("Failed to process chat message")))))
    ensures r.db == db.(messages := r.db.messages, nextId := r.db.nextId)
    ensures Storage.Valid(db) ==> Storage.Valid(r.db)
    ensures message.Some? && !askThrows ==>
      var m := message.value;
      var answer := generate(m, userId);
      && r.value.calls == [GenerateChatResponse(m, userId)]
      && r.value.outcome.Responded?
      && r.db.messages == db.messages + [ChatMessage(db.nextId, userId, m, false, sentAt)]
           + (if answer.Returned? && !replyThrows then [ChatMessage(db.nextId + 1, userId, answer.value, true, repliedAt)] else [])
      && r.db.nextId == db.nextId + (if answer.Returned? && !replyThrows then 2 else 1)
      && (r.value.outcome.response.code == Ok <==> answer.Returned? && !replyThrows)
      && (r.value.outcome.response.code == BadRequest <==> answer.Threw? && answer.validation)
      && (answer.Threw? && answer.validation ==>
            r.value.outcome.response == Response(BadRequest, Message("Invalid message format")))
      && (r.value.outcome.response.code !in {Ok, BadRequest} ==> r.value.outcome.response.code == ServerError)
      && (r.value.outcome.response.code == Ok ==> r.value.outcome.response.body == ChatReply(answer.value))
  {
    var failed := Response(ServerError, Message("Failed to process chat message"));
    match message
    case None => Storage.Reply(db, Exchange([], Responded(Response(BadRequest, Message("Invalid message format")))))
    case Some(m) =>
      if askThrows then Storage.Reply(db, Exchange([], Responded(failed)))
      else
        var asked := Storage.CreateChatMessage(db, NewChatMessage(userId, m, false), sentAt);
        var call := [GenerateChatResponse(m, userId)];
        match generate(m, userId)
        case Returned(reply) =>
          if replyThrows then Storage.Reply(asked.db, Exchange(call, Responded(failed)))
          else
            var answered := Storage.CreateChatMessage(asked.db, NewChatMessage(userId, reply, true), repliedAt);
            Storage.Reply(answered.db, Exchange(call, Responded(Response(Ok, ChatReply(reply)))))
        case Threw(_, true) =>
          Storage.Reply(asked.db, Exchange(call, Responded(Response(BadRequest, Message("Invalid message format")))))
        case Threw(_, false) =>
          Storage.Reply(asked.db, Exchange(call, Responded(failed)))
  }

  // ------------------------------------------------------ tracking route

  /** A query parameter JavaScript treats as true: present and not empty. */
  predicate Truthy(param: Option<string>)
  {
    param.Some? && param.value != ""
  }

  /**
   `GET /api/tracking/comparison-url`: a missing or empty category or
   subcategory is a 400 before any URL is generated.
   */
  function TrackingUrlRoute(category: Option<string>, subcategory: Option<string>,
                            provider: Option<string>, postcode: Option<string>,
                            generate: (string, string, Option<string>, Option<string>) -> Attempt<string>): (r: Exchange)
    ensures r.outcome.Responded?
    ensures r.outcome.response.code == BadRequest <==> category.None? || category.value == "" || subcategory.None? || subcategory.value == ""
    ensures r.outcome.response.code == BadRequest ==> r.calls == []
    ensures r.outcome.response.code != BadRequest ==>
      && r.calls == [GenerateTrackingUrl(category.value, subcategory.value, provider, postcode)]
      && (r.outcome.response.code == Ok <==> generate(category.value, subcategory.value, provider, postcode).Returned?)
      && (generate(category.value, subcategory.value, provider, postcode).Returned? ==>
            r.outcome.response == Response(Ok, TrackingUrl(generate(category.value, subcategory.value, provider, postcode).value)))
      && (generate(category.value, subcategory.value, provider, postcode).Threw? ==>
            r.outcome.response.code == ServerError)
  {
    if !Truthy(category) || !Truthy(subcategory) then
      Exchange([], Responded(Response(BadRequest, Error("Category and subcategory are required"))))
    else
      var call := [GenerateTrackingUrl(category.value, subcategory.value, provider, postcode)];
      match generate(category.value, subcategory.value, provider, postcode)
      case Returned(url) => Exchange(call, Responded(Response(Ok, TrackingUrl(url))))
      case Threw(_, _) => Exchange(call, Responded(Response(ServerError, Error("Failed to generate tracking URL"))))
  }
}

=== FILE: schema.dfy ===
/**
 The rows of the five tables the store reads and writes, and the records
 callers hand it for inserts and updates. Row ids are abstract naturals handed
 out by the store; user ids come from the identity provider and are strings.
 */
module Schema {
  import opened Wrappers

  type UserId = string
  type RowId = nat
  /** A timestamp, as the database's `timestamp` columns hold it. */
  type Time = int

  /** A user row; its profile columns are kept as a column-name → value map. */
  datatype User = User(id: UserId, profile: map<string, string>, createdAt: Time, updatedAt: Time)

  /** The claims written by `upsertUser`: the id and whichever profile columns are present. */
  datatype UpsertUserData = UpsertUserData(id: UserId, profile: map<string, string>)

  /** Where a contract is in its analysis lifecycle. */
  datatype Status = Pending | Analyzing | Analyzed | Failed

  datatype Contract = Contract(
    id: RowId,
    userId: UserId,
    fileName: string,
    content: string,
    status: Status,
    analysis: Option<string>,
    createdAt: Time,
    updatedAt: Time)

  /** The columns a caller supplies when creating a contract. */
  datatype NewContract = NewContract(
    userId: UserId,
    fileName: string,
    content: string,
    status: Status,
    analysis: Option<string>)

  /** A partial `NewContract`: `None` leaves a column as it is. */
  datatype ContractPatch = ContractPatch(
    userId: Option<UserId>,
    fileName: Option<string>,
    content: Option<string>,
    status: Option<Status>,
    analysis: Option<Option<string>>)

  datatype Subscription = Subscription(id: RowId, email: string, isActive: bool, createdAt: Time)

  datatype ChatMessage = ChatMessage(id: RowId, userId: UserId, message: string, isBot: bool, createdAt: Time)

  datatype NewChatMessage = NewChatMessage(userId: UserId, message: string, isBot: bool)

  datatype Notification = Notification(
    id: RowId,
    recipient: string,
    content: string,
    scheduledFor: Time,
    sent: bool,
    sentAt: Option<Time>,
    createdAt: Time)

  datatype NewNotification = NewNotification(recipient: string, content: string, scheduledFor: Time)
}

=== FILE: seqs.dfy ===
/**
 Generic sequence operations that the store's queries are built from: a
 conjunctive `WHERE` is a `Filter`, `ORDER BY … DESC` is `SortDesc`, and the
 first row of a result set is `First`.
 */
module Seqs {
  import opened Wrappers

  /** Every key in `s` occurs once (a primary-key or unique constraint). */
  predicate Distinct<T, K(==)>(s: seq<T>, key: T -> K)
  {
    forall i, j | 0 <= i < j < |s| :: key(s[i]) != key(s[j])
  }

  /** The keys of `s` are distinct and all below `bound`, so `bound` is a fresh key. */
  predicate KeyedBelow<T>(s: seq<T>, key: T -> nat, bound: nat)
  {
    Distinct(s, key) && forall i | 0 <= i < |s| :: key(s[i]) < bound
  }

  /** Rewriting elements in place without changing their keys keeps the keys distinct. */
  lemma DistinctSameKeys<T, K>(s: seq<T>, t: seq<T>, key: T -> K)
    requires Distinct(s, key)
    requires |s| == |t| && forall i | 0 <= i < |s| :: key(t[i]) == key(s[i])
    ensures Distinct(t, key)
  {
  }

  /** Rewriting elements in place without changing their keys keeps a fresh bound fresh. */
  lemma KeyedBelowSameKeys<T>(s: seq<T>, t: seq<T>, key: T -> nat, bound: nat)
    requires KeyedBelow(s, key, bound)
    requires |s| == |t| && forall i | 0 <= i < |s| :: key(t[i]) == key(s[i])
    ensures KeyedBelow(t, key, bound)
  {
  }

  /** `s` is ordered by `key`, largest first. */
  predicate SortedDesc<T>(s: seq<T>, key: T -> int)
  {
    forall i, j | 0 <= i < j < |s| :: key(s[i]) >= key(s[j])
  }

  /** The elements of `s` satisfying `p`, each as often as it occurs in `s`. */
  function Filter<T(!new)>(s: seq<T>, p: T -> bool): (r: seq<T>)
    ensures |r| <= |s|
    ensures forall i | 0 <= i < |r| :: p(r[i])
    ensures forall x :: multiset(r)[x] == if p(x) then multiset(s)[x] else 0
    ensures forall x :: x in r <==> x in s && p(x)
  {
    if |s| == 0 then []
    else
      assert s == [s[0]] + s[1..];
      if p(s[0]) then [s[0]] + Filter(s[1..], p) else Filter(s[1..], p)
  }

  /** Filtering drops an element exactly when some element fails `p`. */
  lemma {:induction false} FilterShrinks<T(!new)>(s: seq<T>, p: T -> bool)
    ensures |Filter(s, p)| < |s| <==> exists i | 0 <= i < |s| :: !p(s[i])
  {
    if |s| > 0 {
      var rest := s[1..];
      FilterShrinks(rest, p);
      if !p(s[0]) {
        assert |Filter(s, p)| == |Filter(rest, p)| <= |rest|;
      } else {
        assert |Filter(s, p)| == 1 + |Filter(rest, p)|;
        assert (exists i | 0 <= i < |s| :: !p(s[i])) <==> exists i | 0 <= i < |rest| :: !p(rest[i]) by {
          if exists i | 0 <= i < |s| :: !p(s[i]) {
            var i :| 0 <= i < |s| && !p(s[i]);
            assert !p(rest[i - 1]);
          }
          if exists i | 0 <= i < |rest| :: !p(rest[i]) {
            var i :| 0 <= i < |rest| && !p(rest[i]);
            assert !p(s[i + 1]);
          }
        }
      }
    }
  }

  /** Filtering a sequence whose every element satisfies `p` changes nothing. */
  lemma {:induction false} FilterKeepsAll<T(!new)>(s: seq<T>, p: T -> bool)
    requires forall i | 0 <= i < |s| :: p(s[i])
    ensures Filter(s, p) == s
  {
    if |s| > 0 {
      FilterKeepsAll(s[1..], p);
    }
  }

  /** Putting a new key in front of a sequence with distinct keys keeps them distinct. */
  lemma DistinctCons<T, K>(y: T, s: seq<T>, key: T -> K)
    requires Distinct(s, key)
    requires forall j | 0 <= j < |s| :: key(y) != key(s[j])
    ensures Distinct([y] + s, key)
  {
  }

  /** A filtered sequence keeps the keys of what it was filtered from distinct. */
  lemma {:induction false} FilterDistinct<T(!new), K>(s: seq<T>, p: T -> bool, key: T -> K)
    requires Distinct(s, key)
    ensures Distinct(Filter(s, p), key)
  {
    if |s| > 0 {
      FilterDistinct(s[1..], p, key);
      var rest := Filter(s[1..], p);
      if p(s[0]) {
        forall j | 0 <= j < |rest|
          ensures key(s[0]) != key(rest[j])
        {
          assert rest[j] in s[1..];
          var k :| 0 <= k < |s[1..]| && s[1..][k] == rest[j];
          assert s[k + 1] == rest[j];
        }
        DistinctCons(s[0], rest, key);
      }
    }
  }

  /** A filtered sequence keeps a fresh bound fresh. */
  lemma FilterKeyedBelow<T(!new)>(s: seq<T>, p: T -> bool, key: T -> nat, bound: nat)
    requires KeyedBelow(s, key, bound)
    ensures KeyedBelow(Filter(s, p), key, bound)
  {
    FilterDistinct(s, p, key);
    var r := Filter(s, p);
    forall i | 0 <= i < |r|
      ensures key(r[i]) < bound
    {
      assert r[i] in s;
    }
  }

  /** The first element of `s` satisfying `p`, if any. */
  function First<T>(s: seq<T>, p: T -> bool): (r: Option<T>)
    ensures r.None? <==> forall i | 0 <= i < |s| :: !p(s[i])
    ensures r.Some? ==> exists i | 0 <= i < |s| :: s[i] == r.value && p(s[i]) && forall j | 0 <= j < i :: !p(s[j])
  {
    if |s| == 0 then None
    else if p(s[0]) then Some(s[0])
    else
      var r := First(s[1..], p);
      assert r.Some? ==> exists i | 1 <= i < |s| :: s[i] == r.value && p(s[i]) && forall j | 1 <= j < i :: !p(s[j]);
      r
  }

  /** `First` finds the element at `i` when nothing before `i` qualifies. */
  lemma {:induction false} FirstAt<T>(s: seq<T>, p: T -> bool, i: nat)
    requires i < |s| && p(s[i])
    requires forall j | 0 <= j < i :: !p(s[j])
    ensures First(s, p) == Some(s[i])
  {
  }

  /** Filtering out only elements that fail `q` does not change the first one satisfying `q`. */
  lemma {:induction false} FirstOfFilter<T(!new)>(s: seq<T>, p: T -> bool, q: T -> bool)
    requires forall x :: q(x) ==> p(x)
    ensures First(Filter(s, p), q) == First(s, q)
  {
    if |s| > 0 {
      FirstOfFilter(s[1..], p, q);
    }
  }

  /** Appending an element that fails `p` does not change the filtered sequence. */
  lemma {:induction false} FilterAppendRejected<T(!new)>(s: seq<T>, x: T, p: T -> bool)
    requires !p(x)
    ensures Filter(s + [x], p) == Filter(s, p)
  {
    var t := s + [x];
    if |s| == 0 {
      assert t == [x] && t[1..] == [];
    } else {
      assert t[0] == s[0] && t[1..] == s[1..] + [x];
      FilterAppendRejected(s[1..], x, p);
    }
  }

  /** `x` placed into `s` in front of the first element whose key is not above its own. */
  function InsertDesc<T(!new)>(x: T, s: seq<T>, key: T -> int): (r: seq<T>)
    ensures multiset(r) == multiset(s) + multiset{x}
    ensures r[0] == x || (|s| > 0 && r[0] == s[0])
  {
    if |s| == 0 || key(x) >= key(s[0]) then [x] + s
    else
      assert s == [s[0]] + s[1..];
      [s[0]] + InsertDesc(x, s[1..], key)
  }

  /** Inserting into a descending sequence keeps it descending. */
  lemma {:induction false} InsertDescSorted<T(!new)>(x: T, s: seq<T>, key: T -> int)
    requires SortedDesc(s, key)
    ensures SortedDesc(InsertDesc(x, s, key), key)
  {
    if |s| > 0 && key(x) < key(s[0]) {
      var rest := InsertDesc(x, s[1..], key);
      InsertDescSorted(x, s[1..], key);
      var r := [s[0]] + rest;
      assert key(s[0]) >= key(rest[0]);
      forall i, j | 0 <= i < j < |r|
        ensures key(r[i]) >= key(r[j])
      {
        assert r[j] == rest[j - 1];
        if i > 0 {
          assert r[i] == rest[i - 1];
        } else if j > 1 {
          assert key(rest[0]) >= key(rest[j - 1]);
        }
      }
    }
  }

  /** `s` rearranged in descending order of `key` (equal keys in no promised order). */
  function SortDesc<T(!new)>(s: seq<T>, key: T -> int): (r: seq<T>)
    ensures SortedDesc(r, key)
    ensures multiset(r) == multiset(s)
  {
    if |s| == 0 then []
    else
      assert s == [s[0]] + s[1..];
      var rest := SortDesc(s[1..], key);
      InsertDescSorted(s[0], rest, key);
      InsertDesc(s[0], rest, key)
  }

  /** What a prefix of `s` leaves out comes from the rest of `s`. */
  lemma PrefixLeavesSuffix<T>(s: seq<T>, k: nat, x: T)
    requires k <= |s|
    requires multiset(s[..k])[x] < multiset(s)[x]
    ensures x in s[k..]
  {
    assert s == s[..k] + s[k..];
    assert multiset(s) == multiset(s[..k]) + multiset(s[k..]);
  }
}

=== FILE: storage.dfy ===
/**
 The persistence layer as a pure state machine. The database is an immutable
 `Db` value holding one sequence of rows per table; every store method is a
 function from the current `Db` (and, where the source reads a clock, the
 Node process's `new Date()` or a timestamp column default, a `now`
 timestamp) to the next `Db` and the method's result. Each
 query is a conjunctive filter over one table, and "zero rows affected" is an
 ordinary `false` or `None` result, never an error.
 */
module Storage {
  import opened Wrappers
  import opened Schema
  import Seqs

  datatype Db = Db(
    users: seq<User>,
    contracts: seq<Contract>,
    subscriptions: seq<Subscription>,
    messages: seq<ChatMessage>,
    notifications: seq<Notification>,
    nextId: RowId)

  /** The database after a store call, and what the call returned. */
  datatype Reply<T> = Reply(db: Db, value: T)

  /** The database the service starts from. */
  const Empty: Db := Db([], [], [], [], [], 0)

  /** How many chat messages `getChatMessages` returns when no limit is given. */
  const DefaultChatLimit: nat := 50

  function UserKey(u: User): UserId { u.id }
  function ContractKey(c: Contract): RowId { c.id }
  function SubscriptionKey(s: Subscription): RowId { s.id }
  function SubscriptionEmail(s: Subscription): string { s.email }
  function MessageKey(m: ChatMessage): RowId { m.id }
  function NotificationKey(n: Notification): RowId { n.id }
  function ContractCreatedAt(c: Contract): int { c.createdAt }
  function MessageCreatedAt(m: ChatMessage): int { m.createdAt }

  /**
   The invariant every store write preserves (`StorageProperties.*KeepsValid`):
   one row per user id and one newsletter row per email (the unique columns
   the upsert and the subscription name as their conflict targets), distinct
   row ids below the model's id counter, and a sent notification always
   carrying the time it was sent.
   */
  predicate Valid(db: Db)
  {
    && Seqs.Distinct(db.users, UserKey)
    && Seqs.KeyedBelow(db.contracts, ContractKey, db.nextId)
    && Seqs.KeyedBelow(db.subscriptions, SubscriptionKey, db.nextId)
    && Seqs.Distinct(db.subscriptions, SubscriptionEmail)
    && Seqs.KeyedBelow(db.messages, MessageKey, db.nextId)
    && Seqs.KeyedBelow(db.notifications, NotificationKey, db.nextId)
    && SentCarryTime(db.notifications)
  }

  /** Every sent notification records when it was sent. */
  predicate SentCarryTime(ns: seq<Notification>)
  {
    forall i | 0 <= i < |ns| :: ns[i].sent ==> ns[i].sentAt.Some?
  }

  // ---------------------------------------------------------------- users

  function GetUser(db: Db, id: UserId): (r: Option<User>)
    ensures r.Some? ==> r.value in db.users && r.value.id == id
    ensures r.None? <==> forall u | u in db.users :: u.id != id
  {
    Seqs.First(db.users, (u: User) => u.id == id)
  }

  /** An existing user row after the conflict branch of `upsertUser`. */
  function MergeUser(u: User, data: UpsertUserData, now: Time): (r: User)
    ensures r.id == u.id && r.createdAt == u.createdAt && r.updatedAt == now
    ensures forall k | k in data.profile :: k in r.profile && r.profile[k] == data.profile[k]
    ensures forall k | k in u.profile && k !in data.profile :: k in r.profile && r.profile[k] == u.profile[k]
    ensures r.profile.Keys == u.profile.Keys + data.profile.Keys
  {
    u.(profile := u.profile + data.profile, updatedAt := now)
  }

  /**
   Inserts the user, or, when a row with the same id exists, overwrites the
   columns present in `data` and stamps `updatedAt`.
   */
  function UpsertUser(db: Db, data: UpsertUserData, now: Time): (r: Reply<User>)
    ensures r.db == db.(users := r.db.users)
    ensures r.value.id == data.id && r.value.updatedAt == now
    ensures GetUser(r.db, data.id) == Some(r.value)
    ensures GetUser(db, data.id).None? ==>
      r.value.profile == data.profile && r.value.createdAt == now && r.db.users == db.users + [r.value]
    ensures GetUser(db, data.id).Some? ==>
      |r.db.users| == |db.users| && r.value == MergeUser(GetUser(db, data.id).value, data, now)
    ensures forall u | u in db.users && u.id != data.id :: u in r.db.users
    ensures forall u | u in r.db.users && u.id != data.id :: u in db.users
  {
    match GetUser(db, data.id)
    case None =>
      var user := User(data.id, data.profile, now, now);
      Seqs.FirstAt(db.users + [user], (u: User) => u.id == data.id, |db.users|);
      Reply(db.(users := db.users + [user]), user)
    case Some(prior) =>
      var rows := MergeRows(db.users, data, now);
      MergedRowIsFound(db.users, data, now);
      Reply(db.(users := rows), MergeUser(prior, data, now))
  }

  /** Every row with the claims' id merged, the others left alone. */
  function MergeRows(users: seq<User>, data: UpsertUserData, now: Time): (rows: seq<User>)
    ensures |rows| == |users|
    ensures forall i | 0 <= i < |users| :: rows[i].id == users[i].id
    ensures forall i | 0 <= i < |users| && users[i].id != data.id :: rows[i] == users[i]
  {
    seq(|users|, i requires 0 <= i < |users| =>
      if users[i].id == data.id then MergeUser(users[i], data, now) else users[i])
  }

  /** After merging, the first row with the id is the merged first row, and no other row moved. */
  lemma MergedRowIsFound(users: seq<User>, data: UpsertUserData, now: Time)
    requires Seqs.First(users, (u: User) => u.id == data.id).Some?
    ensures var rows := MergeRows(users, data, now);
      && Seqs.First(rows, (u: User) => u.id == data.id)
         == Some(MergeUser(Seqs.First(users, (u: User) => u.id == data.id).value, data, now))
      && (forall u | u in users && u.id != data.id :: u in rows)
      && (forall u | u in rows && u.id != data.id :: u in users)
  {
    MergedFirstRow(users, data, now);
    MergeKeepsOthers(users, data, now);
  }

  /** The first row carrying the id is the merge of the row found before. */
  lemma MergedFirstRow(users: seq<User>, data: UpsertUserData, now: Time)
    requires Seqs.First(users, (u: User) => u.id == data.id).Some?
    ensures Seqs.First(MergeRows(users, data, now), (u: User) => u.id == data.id)
      == Some(MergeUser(Seqs.First(users, (u: User) => u.id == data.id).value, data, now))
  {
    var rows := MergeRows(users, data, now);
    var p := (u: User) => u.id == data.id;
    var prior := Seqs.First(users, p).value;
    var i :| 0 <= i < |users| && users[i] == prior && p(users[i]) && forall j | 0 <= j < i :: !p(users[j]);
    assert rows[i] == MergeUser(prior, data, now);
    Seqs.FirstAt(rows, p, i);
  }

  /** Rows for other ids are neither lost nor invented by the merge. */
  lemma MergeKeepsOthers(users: seq<User>, data: UpsertUserData, now: Time)
    ensures var rows := MergeRows(users, data, now);
      && (forall u | u in users && u.id != data.id :: u in rows)
      && (forall u | u in rows && u.id != data.id :: u in users)
  {
  }

  // ------------------------------------------------------------ contracts

  /** Row `c` is the contract `id` and belongs to `userId`. */
  predicate Owns(c: Contract, id: RowId, userId: UserId)
  {
    c.id == id && c.userId == userId
  }

  /** Every contract of `userId`, newest first. */
  function GetContracts(db: Db, userId: UserId): (r: seq<Contract>)
    ensures forall c :: multiset(r)[c] == if c.userId == userId then multiset(db.contracts)[c] else 0
    ensures forall c :: c in r <==> c in db.contracts && c.userId == userId
    ensures Seqs.SortedDesc(r, ContractCreatedAt)
  {
    var owned := Seqs.Filter(db.contracts, (c: Contract) => c.userId == userId);
    var r := Seqs.SortDesc(owned, ContractCreatedAt);
    assert forall c :: c in r <==> c in multiset(owned);
    r
  }

  /** The contract `id`, provided it belongs to `userId`. */
  function GetContract(db: Db, id: RowId, userId: UserId): (r: Option<Contract>)
    ensures r.Some? ==> r.value in db.contracts && r.value.id == id && r.value.userId == userId
    ensures r.None? <==> forall c | c in db.contracts :: !(c.id == id && c.userId == userId)
  {
    Seqs.First(db.contracts, (c: Contract) => Owns(c, id, userId))
  }

  /** Inserts a new contract row with a fresh id, created and updated `now`. */
  function CreateContract(db: Db, data: NewContract, now: Time): (r: Reply<Contract>)
    ensures r.db == db.(contracts := r.db.contracts, nextId := r.db.nextId)
    ensures r.value.id == db.nextId < r.db.nextId
    ensures r.value.userId == data.userId && r.value.fileName == data.fileName && r.value.content == data.content
    ensures r.value.status == data.status && r.value.analysis == data.analysis
    ensures r.value.createdAt == now && r.value.updatedAt == now
    ensures r.db.contracts == db.contracts + [r.value]
  {
    var c := Contract(db.nextId, data.userId, data.fileName, data.content, data.status, data.analysis, now, now);
    Reply(db.(contracts := db.contracts + [c], nextId := db.nextId + 1), c)
  }

  /** A contract row with the columns present in `patch` overwritten and `updatedAt` stamped. */
  function ApplyPatch(c: Contract, patch: ContractPatch, now: Time): (r: Contract)
    ensures r.id == c.id && r.createdAt == c.createdAt && r.updatedAt == now
    ensures r.userId == patch.userId.GetOr(c.userId)
    ensures r.fileName == patch.fileName.GetOr(c.fileName)
    ensures r.content == patch.content.GetOr(c.content)
    ensures r.status == patch.status.GetOr(c.status)
    ensures r.analysis == patch.analysis.GetOr(c.analysis)
  {
    Contract(
      c.id,
      patch.userId.GetOr(c.userId),
      patch.fileName.GetOr(c.fileName),
      patch.content.GetOr(c.content),
      patch.status.GetOr(c.status),
      patch.analysis.GetOr(c.analysis),
      c.createdAt,
      now)
  }

  /**
   Patches the rows that are contract `id` of `userId` and returns the first of
   them as updated; `None`, with nothing changed, when there is no such row.
   */
  function UpdateContract(db: Db, id: RowId, userId: UserId, patch: ContractPatch, now: Time): (r: Reply<Option<Contract>>)
    ensures r.db == db.(contracts := r.db.contracts)
    ensures |r.db.contracts| == |db.contracts|
    ensures forall i | 0 <= i < |db.contracts| && !Owns(db.contracts[i], id, userId) :: r.db.contracts[i] == db.contracts[i]
    ensures forall i | 0 <= i < |db.contracts| && Owns(db.contracts[i], id, userId) ::
      r.db.contracts[i] == ApplyPatch(db.contracts[i], patch, now)
    ensures r.value.None? <==> GetContract(db, id, userId).None?
    ensures r.value.None? ==> r.db == db
    ensures r.value.Some? ==>
      r.value.value == ApplyPatch(GetContract(db, id, userId).value, patch, now) && r.value.value in r.db.contracts
  {
    var rows := seq(|db.contracts|, i requires 0 <= i < |db.contracts| =>
      if Owns(db.contracts[i], id, userId) then ApplyPatch(db.contracts[i], patch, now) else db.contracts[i]);
    match GetContract(db, id, userId)
    case None =>
      assert rows == db.contracts;
      Reply(db, None)
    case Some(c) =>
      assert ApplyPatch(c, patch, now) in rows by {
        var i :| 0 <= i < |db.contracts| && db.contracts[i] == c;
        assert rows[i] == ApplyPatch(c, patch, now);
      }
      Reply(db.(contracts := rows), Some(ApplyPatch(c, patch, now)))
  }

  /**
   Removes the rows that are contract `id` of `userId`; the result says
   whether any row was removed.
   */
  function DeleteContract(db: Db, id: RowId, userId: UserId): (r: Reply<bool>)
    ensures r.db == db.(contracts := r.db.contracts)
    ensures r.value <==> GetContract(db, id, userId).Some?
    ensures forall c :: multiset(r.db.contracts)[c] == if Owns(c, id, userId) then 0 else multiset(db.contracts)[c]
    ensures GetContract(r.db, id, userId).None?
  {
    var keep := (c: Contract) => !Owns(c, id, userId);
    var rows := Seqs.Filter(db.contracts, keep);
    Seqs.FilterShrinks(db.contracts, keep);
    assert GetContract(db, id, userId).Some? ==> exists i | 0 <= i < |db.contracts| :: !keep(db.contracts[i]);
    Reply(db.(contracts := rows), |rows| < |db.contracts|)
  }

  // ----------------------------------------------------------- newsletter

  /**
   Inserts an active subscription for `email`, or, when the email is already
   present, sets `isActive` on its row instead of adding another.
   */
  function SubscribeNewsletter(db: Db, email: string, now: Time): (r: Reply<Subscription>)
    ensures r.db == db.(subscriptions := r.db.subscriptions, nextId := r.db.nextId)
    ensures r.value.email == email && r.value.isActive && r.value in r.db.subscriptions
    ensures forall s | s in r.db.subscriptions && s.email == email :: s.isActive
    ensures (forall s | s in db.subscriptions :: s.email != email) ==>
      r.db.subscriptions == db.subscriptions + [r.value] && r.value.id == db.nextId < r.db.nextId
    ensures (exists s | s in db.subscriptions :: s.email == email) ==>
      && r.db.nextId == db.nextId
      && |r.db.subscriptions| == |db.subscriptions|
      && forall i | 0 <= i < |db.subscriptions| ::
           r.db.subscriptions[i] == if db.subscriptions[i].email == email
             then db.subscriptions[i].(isActive := true) else db.subscriptions[i]
  {
    match Seqs.First(db.subscriptions, (s: Subscription) => s.email == email)
    case None =>
      var s := Subscription(db.nextId, email, true, now);
      Reply(db.(subscriptions := db.subscriptions + [s], nextId := db.nextId + 1), s)
    case Some(prior) =>
      var rows := seq(|db.subscriptions|, i requires 0 <= i < |db.subscriptions| =>
        if db.subscriptions[i].email == email then db.subscriptions[i].(isActive := true) else db.subscriptions[i]);
      assert prior.(isActive := true) in rows by {
        var i :| 0 <= i < |db.subscriptions| && db.subscriptions[i] == prior;
        assert rows[i] == prior.(isActive := true);
      }
      Reply(db.(subscriptions := rows), prior.(isActive := true))
  }

  /**
   Clears `isActive` on the rows for `email`; the result says whether any row
   matched.
   */
  function UnsubscribeNewsletter(db: Db, email: string): (r: Reply<bool>)
    ensures r.db == db.(subscriptions := r.db.subscriptions)
    ensures r.value <==> exists s | s in db.subscriptions :: s.email == email
    ensures !r.value ==> r.db == db
    ensures |r.db.subscriptions| == |db.subscriptions|
    ensures forall i | 0 <= i < |db.subscriptions| ::
      r.db.subscriptions[i] == if db.subscriptions[i].email == email
        then db.subscriptions[i].(isActive := false) else db.subscriptions[i]
  {
    var rows := seq(|db.subscriptions|, i requires 0 <= i < |db.subscriptions| =>
      if db.subscriptions[i].email == email then db.subscriptions[i].(isActive := false) else db.subscriptions[i]);
    var found := Seqs.First(db.subscriptions, (s: Subscription) => s.email == email).Some?;
    if found then Reply(db.(subscriptions := rows), true)
    else
      assert rows == db.subscriptions;
      Reply(db, false)
  }

  // ----------------------------------------------------------------- chat

  /** All of `userId`'s messages in `all`, newest first. */
  function NewestOwnedMessages(all: seq<ChatMessage>, userId: UserId): (r: seq<ChatMessage>)
    ensures Seqs.SortedDesc(r, MessageCreatedAt)
    ensures forall m :: multiset(r)[m] == if m.userId == userId then multiset(all)[m] else 0
  {
    Seqs.SortDesc(Seqs.Filter(all, (m: ChatMessage) => m.userId == userId), MessageCreatedAt)
  }

  /**
   At most `limit` of `userId`'s messages, newest first: whenever one of the
   user's messages is left out, the result is full and nothing in it is older
   than the message left out.
   */
  function GetChatMessages(db: Db, userId: UserId, limit: nat): (r: seq<ChatMessage>)
    ensures |r| <= limit
    ensures forall i | 0 <= i < |r| :: r[i].userId == userId
    ensures forall m :: multiset(r)[m] <= multiset(db.messages)[m]
    ensures Seqs.SortedDesc(r, MessageCreatedAt)
    ensures forall m: ChatMessage | m.userId == userId && multiset(r)[m] < multiset(db.messages)[m] ::
      |r| == limit && forall i | 0 <= i < |r| :: r[i].createdAt >= m.createdAt
  {
    var newest := NewestOwnedMessages(db.messages, userId);
    NewestPrefix(db.messages, userId, newest, limit);
    newest[..if limit < |newest| then limit else |newest|]
  }

  /**
   A prefix of at most `limit` of the user's messages sorted newest first
   holds only the user's messages, and whatever it leaves out is no newer
   than anything in it.
   */
  lemma NewestPrefix(all: seq<ChatMessage>, userId: UserId, newest: seq<ChatMessage>, limit: nat)
    requires Seqs.SortedDesc(newest, MessageCreatedAt)
    requires forall m :: multiset(newest)[m] == if m.userId == userId then multiset(all)[m] else 0
    ensures var r := newest[..if limit < |newest| then limit else |newest|];
      && |r| <= limit
      && (forall i | 0 <= i < |r| :: r[i].userId == userId)
      && (forall m :: multiset(r)[m] <= multiset(all)[m])
      && Seqs.SortedDesc(r, MessageCreatedAt)
      && forall m: ChatMessage | m.userId == userId && multiset(r)[m] < multiset(all)[m] ::
           |r| == limit && forall i | 0 <= i < |r| :: r[i].createdAt >= m.createdAt
  {
    var k := if limit < |newest| then limit else |newest|;
    PrefixIsOwned(all, userId, newest, k);
    PrefixIsNewest(all, userId, newest, k);
  }

  /** A prefix of the user's sorted messages holds only the user's messages, still sorted. */
  lemma PrefixIsOwned(all: seq<ChatMessage>, userId: UserId, newest: seq<ChatMessage>, k: nat)
    requires k <= |newest|
    requires Seqs.SortedDesc(newest, MessageCreatedAt)
    requires forall m :: multiset(newest)[m] == if m.userId == userId then multiset(all)[m] else 0
    ensures forall i | 0 <= i < k :: newest[..k][i].userId == userId
    ensures forall m :: multiset(newest[..k])[m] <= multiset(all)[m]
    ensures Seqs.SortedDesc(newest[..k], MessageCreatedAt)
  {
    var r := newest[..k];
    assert newest == r + newest[k..];
    assert multiset(newest) == multiset(r) + multiset(newest[k..]);
    forall i | 0 <= i < k
      ensures r[i].userId == userId
    {
      assert r[i] == newest[i];
      assert newest[i] in multiset(newest);
    }
  }

  /** What a prefix of the user's sorted messages leaves out lies past it and is no newer. */
  lemma PrefixIsNewest(all: seq<ChatMessage>, userId: UserId, newest: seq<ChatMessage>, k: nat)
    requires k <= |newest|
    requires Seqs.SortedDesc(newest, MessageCreatedAt)
    requires forall m :: multiset(newest)[m] == if m.userId == userId then multiset(all)[m] else 0
    ensures forall m: ChatMessage | m.userId == userId && multiset(newest[..k])[m] < multiset(all)[m] ::
      k < |newest| && forall i | 0 <= i < k :: newest[..k][i].createdAt >= m.createdAt
  {
    forall m: ChatMessage | m.userId == userId && multiset(newest[..k])[m] < multiset(all)[m]
      ensures k < |newest| && forall i | 0 <= i < k :: newest[..k][i].createdAt >= m.createdAt
    {
      Seqs.PrefixLeavesSuffix(newest, k, m);
      var j :| k <= j < |newest| && newest[j] == m;
      assert forall i | 0 <= i < k :: MessageCreatedAt(newest[i]) >= MessageCreatedAt(newest[j]);
    }
  }

  /** `getChatMessages` with its default limit. */
  function GetRecentChatMessages(db: Db, userId: UserId): (r: seq<ChatMessage>)
    ensures |r| <= DefaultChatLimit
    ensures forall i | 0 <= i < |r| :: r[i].userId == userId
    ensures forall m :: multiset(r)[m] <= multiset(db.messages)[m]
    ensures Seqs.SortedDesc(r, MessageCreatedAt)
    ensures forall m: ChatMessage | m.userId == userId && multiset(r)[m] < multiset(db.messages)[m] ::
      |r| == DefaultChatLimit && forall i | 0 <= i < |r| :: r[i].createdAt >= m.createdAt
  {
    GetChatMessages(db, userId, DefaultChatLimit)
  }

  /** Appends a chat message with a fresh id, created `now`. */
  function CreateChatMessage(db: Db, data: NewChatMessage, now: Time): (r: Reply<ChatMessage>)
    ensures r.db == db.(messages := r.db.messages, nextId := r.db.nextId)
    ensures r.value.id == db.nextId < r.db.nextId
    ensures r.value.userId == data.userId && r.value.message == data.message && r.value.isBot == data.isBot
    ensures r.value.createdAt == now
    ensures r.db.messages == db.messages + [r.value]
  {
    var m := ChatMessage(db.nextId, data.userId, data.message, data.isBot, now);
    Reply(db.(messages := db.messages + [m], nextId := db.nextId + 1), m)
  }

  // -------------------------------------------------------- notifications

  /** Appends an unsent notification with a fresh id, created `now`. */
  function CreateEmailNotification(db: Db, data: NewNotification, now: Time): (r: Reply<Notification>)
    ensures r.db == db.(notifications := r.db.notifications, nextId := r.db.nextId)
    ensures r.value.id == db.nextId < r.db.nextId
    ensures r.value.recipient == data.recipient && r.value.content == data.content
    ensures r.value.scheduledFor == data.scheduledFor
    ensures !r.value.sent && r.value.sentAt.None?
    ensures r.db.notifications == db.notifications + [r.value]
  {
    var n := Notification(db.nextId, data.recipient, data.content, data.scheduledFor, false, None, now);
    Reply(db.(notifications := db.notifications + [n], nextId := db.nextId + 1), n)
  }

  /** The unsent notifications scheduled strictly before `now`. */
  function GetPendingNotifications(db: Db, now: Time): (r: seq<Notification>)
    ensures forall n :: multiset(r)[n] == if !n.sent && n.scheduledFor < now then multiset(db.notifications)[n] else 0
    ensures forall n :: n in r <==> n in db.notifications && !n.sent && n.scheduledFor < now
  {
    Seqs.Filter(db.notifications, (n: Notification) => !n.sent && n.scheduledFor < now)
  }

  /**
   Sets `sent` and `sentAt := now` on the rows with this id (whatever their
   state); the result says whether any row matched.
   */
  function MarkNotificationSent(db: Db, id: RowId, now: Time): (r: Reply<bool>)
    ensures r.db == db.(notifications := r.db.notifications)
    ensures r.value <==> exists n | n in db.notifications :: n.id == id
    ensures !r.value ==> r.db == db
    ensures |r.db.notifications| == |db.notifications|
    ensures forall i | 0 <= i < |db.notifications| ::
      r.db.notifications[i] == if db.notifications[i].id == id
        then db.notifications[i].(sent := true, sentAt := Some(now)) else db.notifications[i]
  {
    var rows := seq(|db.notifications|, i requires 0 <= i < |db.notifications| =>
      if db.notifications[i].id == id then db.notifications[i].(sent := true, sentAt := Some(now)) else db.notifications[i]);
    var found := Seqs.First(db.notifications, (n: Notification) => n.id == id).Some?;
    if found then Reply(db.(notifications := rows), true)
    else
      assert rows == db.notifications;
      Reply(db, false)
  }
}

=== FILE: storage_properties.dfy ===
/**
 Properties of the store that relate several calls: the database constraints
 survive every write, a user can never reach another user's contract,
 deleting and subscribing are idempotent, and a notification marked sent
 never shows up as pending again.
 */
module StorageProperties {
  import opened Wrappers
  import opened Schema
  import opened Storage
  import Seqs

  // ---------------------------------------------------------- invariants

  lemma EmptyIsValid()
    ensures Valid(Empty)
  {
  }

  lemma UpsertUserKeepsValid(db: Db, data: UpsertUserData, now: Time)
    requires Valid(db)
    ensures Valid(UpsertUser(db, data, now).db)
  {
  }

  lemma CreateContractKeepsValid(db: Db, data: NewContract, now: Time)
    requires Valid(db)
    ensures Valid(CreateContract(db, data, now).db)
  {
  }

  lemma UpdateContractKeepsValid(db: Db, id: RowId, userId: UserId, patch: ContractPatch, now: Time)
    requires Valid(db)
    ensures Valid(UpdateContract(db, id, userId, patch, now).db)
  {
  }

  lemma DeleteContractKeepsValid(db: Db, id: RowId, userId: UserId)
    requires Valid(db)
    ensures Valid(DeleteContract(db, id, userId).db)
  {
    var keep := (c: Contract) => !Owns(c, id, userId);
    assert DeleteContract(db, id, userId).db.contracts == Seqs.Filter(db.contracts, keep);
    Seqs.FilterKeyedBelow(db.contracts, keep, ContractKey, db.nextId);
  }

  lemma SubscribeKeepsValid(db: Db, email: string, now: Time)
    requires Valid(db)
    ensures Valid(SubscribeNewsletter(db, email, now).db)
  {
    if forall s | s in db.subscriptions :: s.email != email {
      SubscribeNewEmailKeepsValid(db, email, now);
    } else {
      var r := SubscribeNewsletter(db, email, now);
      Seqs.KeyedBelowSameKeys(db.subscriptions, r.db.subscriptions, SubscriptionKey, db.nextId);
      Seqs.DistinctSameKeys(db.subscriptions, r.db.subscriptions, SubscriptionEmail);
    }
  }

  lemma SubscribeNewEmailKeepsValid(db: Db, email: string, now: Time)
    requires Valid(db)
    requires forall s | s in db.subscriptions :: s.email != email
    ensures Valid(SubscribeNewsletter(db, email, now).db)
  {
  }

  lemma UnsubscribeKeepsValid(db: Db, email: string)
    requires Valid(db)
    ensures Valid(UnsubscribeNewsletter(db, email).db)
  {
    var r := UnsubscribeNewsletter(db, email);
    Seqs.KeyedBelowSameKeys(db.subscriptions, r.db.subscriptions, SubscriptionKey, db.nextId);
    Seqs.DistinctSameKeys(db.subscriptions, r.db.subscriptions, SubscriptionEmail);
  }

  lemma CreateChatMessageKeepsValid(db: Db, data: NewChatMessage, now: Time)
    requires Valid(db)
    ensures Valid(CreateChatMessage(db, data, now).db)
  {
  }

  lemma CreateEmailNotificationKeepsValid(db: Db, data: NewNotification, now: Time)
    requires Valid(db)
    ensures Valid(CreateEmailNotification(db, data, now).db)
  {
  }

  lemma MarkNotificationSentKeepsValid(db: Db, id: RowId, now: Time)
    requires Valid(db)
    ensures Valid(MarkNotificationSent(db, id, now).db)
  {
    var r := MarkNotificationSent(db, id, now);
    Seqs.KeyedBelowSameKeys(db.notifications, r.db.notifications, NotificationKey, db.nextId);
  }

  // ----------------------------------------------------------- contracts

  /** A contract that belongs to someone else is invisible, even though its row exists. */
  lemma OwnershipIsolation(db: Db, c: Contract, userId: UserId)
    requires Valid(db)
    requires c in db.contracts && c.userId != userId
    ensures GetContract(db, c.id, userId).None?
  {
  }

  /** A freshly created contract is what its owner reads back by id, and it is in the owner's list. */
  lemma CreatedContractIsVisible(db: Db, data: NewContract, now: Time)
    requires Valid(db)
    ensures var r := CreateContract(db, data, now);
      GetContract(r.db, r.value.id, data.userId) == Some(r.value) && r.value in GetContracts(r.db, data.userId)
  {
  }

  /** Deleting again right after a delete finds nothing and changes nothing. */
  lemma DeleteIsIdempotent(db: Db, id: RowId, userId: UserId)
    ensures var first := DeleteContract(db, id, userId);
      var second := DeleteContract(first.db, id, userId);
      !second.value && second.db == first.db
  {
    var first := DeleteContract(db, id, userId);
    var keep := (c: Contract) => !Owns(c, id, userId);
    forall i | 0 <= i < |first.db.contracts|
      ensures keep(first.db.contracts[i])
    {
      assert first.db.contracts[i] in multiset(first.db.contracts);
    }
    Seqs.FilterKeepsAll(first.db.contracts, keep);
  }

  /** One user's delete changes neither what another user reads by id nor their list. */
  lemma DeleteLeavesOtherUsers(db: Db, id: RowId, userId: UserId, other: UserId, x: RowId)
    requires other != userId
    ensures var after := DeleteContract(db, id, userId).db;
      && GetContract(after, x, other) == GetContract(db, x, other)
      && multiset(GetContracts(after, other)) == multiset(GetContracts(db, other))
  {
    DeleteKeepsOthersLookup(db, id, userId, other, x);
    DeleteKeepsOthersList(db, id, userId, other);
  }

  lemma DeleteKeepsOthersLookup(db: Db, id: RowId, userId: UserId, other: UserId, x: RowId)
    requires other != userId
    ensures GetContract(DeleteContract(db, id, userId).db, x, other) == GetContract(db, x, other)
  {
    var keep := (c: Contract) => !Owns(c, id, userId);
    assert DeleteContract(db, id, userId).db.contracts == Seqs.Filter(db.contracts, keep);
    Seqs.FirstOfFilter(db.contracts, keep, (c: Contract) => Owns(c, x, other));
  }

  lemma DeleteKeepsOthersList(db: Db, id: RowId, userId: UserId, other: UserId)
    requires other != userId
    ensures multiset(GetContracts(DeleteContract(db, id, userId).db, other)) == multiset(GetContracts(db, other))
  {
    var after := DeleteContract(db, id, userId).db;
    forall c
      ensures multiset(GetContracts(after, other))[c] == multiset(GetContracts(db, other))[c]
    {
      if c.userId == other {
        assert !Owns(c, id, userId);
      }
    }
  }

  /** An update that leaves the owner alone is what the owner then reads back. */
  lemma UpdatedContractIsVisible(db: Db, id: RowId, userId: UserId, patch: ContractPatch, now: Time)
    requires Valid(db)
    requires patch.userId.GetOr(userId) == userId
    ensures var r := UpdateContract(db, id, userId, patch, now);
      GetContract(r.db, id, userId) == r.value
  {
    var r := UpdateContract(db, id, userId, patch, now);
    if r.value.Some? {
      var c := GetContract(db, id, userId).value;
      var i :| 0 <= i < |db.contracts| && db.contracts[i] == c;
      forall j | 0 <= j < i
        ensures !Owns(r.db.contracts[j], id, userId)
      {
        assert ContractKey(db.contracts[j]) != ContractKey(db.contracts[i]);
      }
      Seqs.FirstAt(r.db.contracts, (d: Contract) => Owns(d, id, userId), i);
    }
  }

  // ---------------------------------------------------------- newsletter

  /** After subscribing, the email has exactly one row, and it is active. */
  lemma SubscribeLeavesOneActiveRow(db: Db, email: string, now: Time)
    requires Valid(db)
    ensures var rows := SubscribeNewsletter(db, email, now).db.subscriptions;
      && (exists i | 0 <= i < |rows| :: rows[i].email == email && rows[i].isActive)
      && forall i, j | 0 <= i < |rows| && 0 <= j < |rows| && rows[i].email == email && rows[j].email == email :: i == j
  {
  }

  /** Subscribing twice leaves the database as subscribing once did, and returns the same row. */
  lemma SubscribeIsIdempotent(db: Db, email: string, now: Time, later: Time)
    ensures var first := SubscribeNewsletter(db, email, now);
      SubscribeNewsletter(first.db, email, later) == first
  {
    var first := SubscribeNewsletter(db, email, now);
    var second := SubscribeNewsletter(first.db, email, later);
    ResubscribeKeepsRows(first.db, email, later);
    FirstSubscriptionIsReturned(db, email, now);
    var p := (s: Subscription) => s.email == email;
    var found := Seqs.First(first.db.subscriptions, p);
    assert found == Some(first.value);
    assert second.value == first.value.(isActive := true);
  }

  /** Subscribing an email whose rows are all active changes no row. */
  lemma ResubscribeKeepsRows(db: Db, email: string, now: Time)
    requires exists s | s in db.subscriptions :: s.email == email
    requires forall s | s in db.subscriptions && s.email == email :: s.isActive
    ensures SubscribeNewsletter(db, email, now).db == db
  {
  }

  /** The row `subscribeNewsletter` returns is the first row for that email afterwards. */
  lemma FirstSubscriptionIsReturned(db: Db, email: string, now: Time)
    ensures var r := SubscribeNewsletter(db, email, now);
      Seqs.First(r.db.subscriptions, (s: Subscription) => s.email == email) == Some(r.value)
  {
    var r := SubscribeNewsletter(db, email, now);
    var rows := r.db.subscriptions;
    var p := (s: Subscription) => s.email == email;
    if forall s | s in db.subscriptions :: s.email != email {
      Seqs.FirstAt(rows, p, |db.subscriptions|);
    } else {
      var i :| 0 <= i < |db.subscriptions| && db.subscriptions[i] == Seqs.First(db.subscriptions, p).value
        && p(db.subscriptions[i]) && forall j | 0 <= j < i :: !p(db.subscriptions[j]);
      Seqs.FirstAt(rows, p, i);
    }
  }

  /** Unsubscribing a subscribed email succeeds, and re-subscribing reuses its row. */
  lemma UnsubscribeThenResubscribe(db: Db, email: string, now: Time, later: Time)
    ensures var sub := SubscribeNewsletter(db, email, now);
      var unsub := UnsubscribeNewsletter(sub.db, email);
      var resub := SubscribeNewsletter(unsub.db, email, later);
      && unsub.value
      && (forall s | s in unsub.db.subscriptions && s.email == email :: !s.isActive)
      && |resub.db.subscriptions| == |sub.db.subscriptions|
      && resub.value.isActive
  {
    var sub := SubscribeNewsletter(db, email, now);
    var unsub := UnsubscribeNewsletter(sub.db, email);
    UnsubscribeDeactivates(sub.db, email);
    assert sub.value in sub.db.subscriptions;
    var i :| 0 <= i < |sub.db.subscriptions| && sub.db.subscriptions[i] == sub.value;
    assert unsub.db.subscriptions[i] in unsub.db.subscriptions;
  }

  /** After unsubscribing, no row for the email is active. */
  lemma UnsubscribeDeactivates(db: Db, email: string)
    ensures forall s | s in UnsubscribeNewsletter(db, email).db.subscriptions && s.email == email :: !s.isActive
  {
  }

  // -------------------------------------------------------- notifications

  /** Once marked sent, a notification is not pending at any time. */
  lemma MarkedNotificationLeavesPending(db: Db, id: RowId, now: Time, t: Time)
    ensures forall n | n in GetPendingNotifications(MarkNotificationSent(db, id, now).db, t) :: n.id != id
  {
  }

  /** Marking one notification sent changes no other notification's pending status. */
  lemma MarkSentLeavesOthersPending(db: Db, id: RowId, now: Time, t: Time, n: Notification)
    requires n.id != id
    ensures n in GetPendingNotifications(MarkNotificationSent(db, id, now).db, t)
      <==> n in GetPendingNotifications(db, t)
  {
    var after := MarkNotificationSent(db, id, now).db;
    if n in after.notifications {
      var i :| 0 <= i < |after.notifications| && after.notifications[i] == n;
      assert db.notifications[i] == n;
    }
    if n in db.notifications {
      var i :| 0 <= i < |db.notifications| && db.notifications[i] == n;
      assert after.notifications[i] == n;
    }
  }

  /** A new notification is pending exactly once its scheduled time has passed. */
  lemma CreatedNotificationIsPendingWhenDue(db: Db, data: NewNotification, now: Time, t: Time)
    ensures var r := CreateEmailNotification(db, data, now);
      r.value in GetPendingNotifications(r.db, t) <==> data.scheduledFor < t
  {
  }

  // ----------------------------------------------------------------- chat

  /** Writing a message for one user does not change any other user's history. */
  lemma ChatHistoryIsPerUser(db: Db, data: NewChatMessage, now: Time, other: UserId, limit: nat)
    requires other != data.userId
    ensures GetChatMessages(CreateChatMessage(db, data, now).db, other, limit) == GetChatMessages(db, other, limit)
  {
    var r := CreateChatMessage(db, data, now);
    var p := (m: ChatMessage) => m.userId == other;
    Seqs.FilterAppendRejected(db.messages, r.value, p);
    assert NewestOwnedMessages(r.db.messages, other) == NewestOwnedMessages(db.messages, other);
  }
}

=== FILE: wrappers.dfy ===
/** Optional values, standing in for the `T | undefined` results of the store. */
module Wrappers {

  datatype Option<+T> = None | Some(value: T) {

    /** The value held, or `default` when there is none (JavaScript's `??`). */
    function GetOr(default: T): T
    {
      match this
      case Some(v) => v
      case None => default
    }
  }
}
